=== FILE: README.md ===
# attr_property in Dafny

A model of `attr_property`, a small extension of the Python `attrs` library
that turns declared fields into computed properties. A field declared with
`attr_property(...)` gets a user getter, setter and deleter, an optional cache of
getter results, assignment-time conversion and validation, and optionally a
read-only "raw" accessor that shows the stored value before the getter.

Each instance owns two maps keyed by field name: `raw` (the last value
assigned, after conversion) and `cached` (the memoised getter result). The model
follows that design:

- `outcomes.dfy` (`Outcomes`): `Option`, `Result`, the `Outcome` of a callback
  whose return value is ignored, and the exceptions an access can end with
  (`KeyError`, `AttributeError`, `ValueError`, a user exception).
- `raw_cache.dfy` (`RawCache`): the per-instance `Store` of the two maps, the
  empty store every instance starts with, and the coherence invariant.
- `accessors.dfy` (`Accessors`): `property_getter`, `property_setter`,
  `property_deleter` and the raw accessor as pure functions from a store to a
  `Step`: the store afterwards, the log of user callbacks invoked (in order,
  with their arguments) and the outcome. The store is returned even when the
  access raises, because the Python code mutates its dictionaries before some
  of the points where an exception can escape (the cache is dropped before the
  converter runs; the raw value is written before the user setter runs).
- `declaration.dfy` (`Declaration`): the options of `attr_property`, their
  defaults, and their normalisation into the field's property metadata.
- `enhancer.dfy` (`Enhancer`): `attr_property_class`: how each property field's
  metadata selects getter, cache, setter, runtime converter and validator,
  deleter mode and doc string, and how the descriptors are installed, field by
  field, into the class namespace.
- `instance.dfy` (`Instance`): attribute reads, assignments and deletions on
  an instance, dispatched through the installed descriptors, runs of such
  accesses, and the store invariant they preserve.
- `scenarios.dfy` (`Scenarios`): the classes of the test suite and README
  example over a small universe of Python values, and the behaviour their
  assertions describe.

User callbacks are uninterpreted Dafny functions: a getter, converter and
setter map a value to a value or an exception message, a validator returns or
raises, and a deleter (which receives only the instance) is a fixed outcome.

Where the documentation and the code disagree the model follows the code. The
docstring of `attr_property` says `setter=False` disables the setter, but
`attr_property_class` always installs `property_setter`; `setter=False` only
suppresses the user callback (`if setter:`), so assignment still works. In the
model `NoSetter` and `DefaultSetter` both wire to "no user setter".

## Model

| member | source | states |
|---|---|---|
| Accessors.Get | attr_property.py:7-21 | With caching on and a cached value present, the read returns it, calls no getter and leaves the store as it was; otherwise a missing raw value raises KeyError with the store untouched, and a present one yields the getter's result on it (or the raw value when there is no getter), memoised only when caching is on and the getter did not raise; raw values and other names are never touched. |
| Accessors.Admit | attr_property.py:36-39 | An assignment is admitted exactly when the runtime converter (if any) does not raise and the runtime validator (if any) accepts the converted value; the admitted value is the converted one. |
| Accessors.Set | attr_property.py:23-42 | The name's cached value is dropped whatever happens; the raw value becomes the converted value exactly when conversion and validation succeed and is otherwise left as it was, with the converter's or validator's exception as the outcome; callbacks run converter, validator, then setter with the stored value, and a callback that raises is the last one called; the setter's exception reaches the caller unchanged after the value was stored; no other name changes; coherence is preserved. |
| Accessors.Delete | attr_property.py:44-55 | A property with deletion disabled raises AttributeError; an absent raw value raises KeyError before the cache is touched; otherwise both the raw and cached entries are removed and then the user deleter runs; its exception, unchanged, is the outcome. |
| Accessors.RawRead | attr_property.py:143 | The raw accessor returns exactly the stored raw value, and raises KeyError exactly when there is none. |
| Accessors.GetTwice | attr_property.py:15-21 | Two reads with no write in between return the same value; with caching on the second calls no getter and changes nothing. |
| Accessors.SetThenGet | attr_property.py:33-40 | After an admitted assignment the next read calls the getter on the newly stored value, even if it equals the old one, because the assignment invalidated the cache. |
| Accessors.SetThenRawRead | attr_property.py:36-40 | After an admitted assignment the raw accessor returns the converted value. |
| Accessors.RejectedSetDropsCache | attr_property.py:33-39 | A rejected assignment raises, keeps every raw value and still removes the cached value of the name. |
| Accessors.SetterResultIgnored | attr_property.py:40-42 | The user setter only observes the stored value: setters returning different values leave the same store, the same as having no setter. |
| Accessors.DeleteThenAbsent | attr_property.py:51-55 | After a deletion, reading, deleting again and the raw accessor all raise KeyError. |
| Declaration.DefaultOptions | attr_property.py:147-153 | The keyword defaults: no getter, default setter and deleter, both runtime flags on, caching on, no raw accessor, no doc. |
| Declaration.NormaliseRaw | attr_property.py:183 | `raw=True` is recorded as the prefix "_"; any other value is recorded unchanged, so True never survives normalisation. |
| Declaration.AccessorName | attr_property.py:140-141 | A field gets a raw accessor exactly when its recorded prefix is a non-empty string, and the accessor is named prefix followed by the field name. |
| Declaration.AttrProperty | attr_property.py:175-189 | The declared field keeps its name, converter and validator, is marked as a property, and records the options with `raw` normalised. |
| Declaration.RawOptionAccessor | attr_property.py:168-171 | `raw=True` gives the accessor "_" + name, `raw=False` none, a string its own prefix (none when empty); recording the options again changes nothing. |
| Enhancer.DocOf | attr_property.py:135-138 | The doc argument handed to `property(...)` is the `doc` option when it is non-empty, otherwise the getter's doc when there is a getter, otherwise "Property " followed by the name. |
| Enhancer.Wire | attr_property.py:114-139 | The converter and validator are used on assignment exactly when the field has one and its runtime flag is on; only a callable setter is notified; deletion is disabled exactly when `deleter=False` and default exactly when `deleter=None`; getter and cache come from the metadata. |
| Enhancer.InstallOne | attr_property.py:114-144 | One loop iteration installs the property built from the field's metadata under the field's name and, when requested, the raw accessor reading this field under the accessor name; it writes no other name and keeps each property under the name it was built for. |
| Enhancer.InstallAll | attr_property.py:113-144 | The loop writes exactly the names the fields install, leaves all other entries alone, and keeps each property under the name it was built for. |
| Enhancer.Enhance | attr_property.py:107-145 | The enhancer raises ValueError exactly for a class attrs never processed; otherwise the installed names are exactly the property fields' names and their accessor names. |
| Enhancer.InstallAllLookup | attr_property.py:113-144 | A property field's descriptor stays under its name, and its raw accessor under the accessor name, unless a later field writes the same name. |
| Enhancer.EnhanceInstallsEveryProperty | attr_property.py:113-144 | When no name is written twice, every property field is reachable under its name with the configuration built from its metadata, and its raw accessor under the accessor name. |
| Instance.ReadAttr | attr_property.py:131-144 | Reading an attribute dispatches to the property's getter logic, or for a raw accessor returns the raw value with no callback and no store change. |
| Instance.WriteAttr | attr_property.py:131-144 | Assigning a property runs the setter logic; assigning a raw accessor (a property with no setter) raises AttributeError and changes nothing. |
| Instance.DeleteAttr | attr_property.py:131-144 | Deleting a property runs the deleter logic; deleting a raw accessor raises AttributeError and changes nothing. |
| Instance.ApplyKeepsConsistent | attr_property.py:15-55 | One access, successful or not, keeps the invariant: raw values belong to installed properties, and a cached value belongs to a caching property that has a raw value and is the getter's result on that raw value, because every assignment and deletion drops the cached value. |
| Instance.RunKeepsConsistent | attr_property.py:15-55 | Every sequence of accesses, including ones that raise, preserves that invariant, hence cached names are always a subset of raw names and, for getters that depend only on the raw value, no cached value is stale. |
| Instance.FreshInstanceStaysConsistent | attr_property.py:63-65 | From the empty maps every instance is constructed with, any sequence of accesses on an enhanced class leaves cached names within raw names, each cached value being the getter's result on the current raw value. |
| Instance.CacheTransparent | attr_property.py:15-21 | For getters that depend only on the raw value: on a store satisfying the invariant, reading a property gives the same outcome as an uncached read: the getter's result on the current raw value, or KeyError when there is none. |
| Instance.FreshInstanceReadsCurrent | attr_property.py:15-55 | For getters that depend only on the raw value: on an instance of an enhanced class, after any sequence of accesses, a property read never returns a stale cached value: it agrees with an uncached read. |
| Instance.RawAccessorBypassesGetter | attr_property.py:140-144 | After an admitted assignment the raw accessor reads the converted value without any callback, while the property reads the getter's result. |
| RawCache.Empty | attr_property.py:63-65 | A new instance starts with no raw and no cached values. |
| Scenarios.TestInstanceKeys | tests/test_attr_property.py:11-23 | For the test class the enhancer writes b, c, d and `_d`, in that order and none of them twice; the plain field a contributes nothing. |
| Scenarios.TestInstanceTable | tests/test_attr_property.py:11-23 | The enhanced test class installs exactly the properties b, c and d and the accessor `_d`, and nothing for the plain field a. |
| Scenarios.TestInstanceWired | tests/test_attr_property.py:11-23 | In the enhanced test class, b, c and d each hold the configuration wired from their own field (so the scenarios below may read them through `Wire`), and `_d` reads d's raw value. |
| Scenarios.TestException | tests/test_attr_property.py:52-56 | Enhancing a plain class raises ValueError. |
| Scenarios.TestScenario | tests/test_attr_property.py:31-50 | Reads fill the cache; d reads 12 from the cache while `_d` reads 4; deleting c drops both its entries and runs the deleter; reassigning c notifies the setter and later reads see 30, then 300. |
| Scenarios.ConvertThenValidate | tests/test_attr_property.py:18-23 | Field d stores "4" as 4 and reads 12; 20 and "20" are rejected after conversion with the validator's message, each leaving the raw value at 4 and the cache empty. |
| Scenarios.ReadmeScenario | tests/readme.py:4-25 | Assigning 1 succeeds and notifies the setter (which returns None), reading calls the getter once and gives 2, deleting runs the deleter, and the next read raises KeyError. |

## Left out

- `_attrs_to_init_script` and `_make_init` (attr_property.py:57-104) patch the source text of the `__init__` that attrs generates and compile it; they are code generation inside attrs. Only their effect is modelled: every instance starts with two empty maps (`RawCache.Empty`).
- Construction-time behaviour of attrs (its `__init__` assigning each field through the property, applying the converter, and running validators that read the property) is attrs' own logic and not part of this model; the test scenario starts from the store the test observes after construction.
- Callbacks do not receive the instance (`self`) and cannot read or change it; side effects such as printing or setting `c_deleted` are represented only by the call log. The validator does not receive the attrs `Attribute` object (`attr.fields_dict(...)[name]`).
- `functools.partial`, `property(...)`, `setattr` on the class and the `attr.ib` call are replaced by the `AttrConfig` record and the descriptor table; the other `attr.ib` parameters (default, repr, cmp, hash, init, type, factory, kw_only, eq, order) pass through to attrs and are not modelled, nor are user metadata keys other than the property options.
- Declaration.AttrProperty: gives each field its own copy of the options and does not model the `metadata` argument; the source writes the `property.*` keys into the caller's dict in place (`metadata = metadata or {}`), so two fields declared with the same non-empty dict share one metadata object and both carry the options of the last declaration. Modelling that aliasing needs a mutable heap of dictionaries shared between declarations, which the value-typed field records here do not have.
- Enhancer.DocOf: records the doc argument passed to `property(...)`, not the resulting `__doc__`. When that argument is None (a getter without a docstring), Python's `property` copies the docstring of its `fget`, which here is the `functools.partial` object built from `property_getter`, so the attribute's `__doc__` becomes `functools.partial`'s own class docstring; the model leaves the doc as None in that case.
- Instance.CacheTransparent (and Instance.FreshInstanceReadsCurrent, and the "no cached value is stale" part of Instance.RunKeepsConsistent): freshness of the cache holds because a model getter is a function of the raw value alone over immutable values. In Python a getter also receives `self` and may read other fields, a clock or a counter, and the cached object is the one the getter returned, so mutating it in place (`inst.x.append(3)` after a getter returning `list(v)`) makes later cached reads differ from a fresh getter call; neither impure getters nor in-place mutation of values is modelled.
- Python truthiness corner cases that end in a TypeError inside the library (`setter=True`, `deleter=True`, `raw=1`, or hand-written metadata recording `raw` as True) are not modelled; options are typed as None / False / callable, bool / string.
- Per-instance isolation holds trivially: each store is an immutable value and every operation takes and returns one store.
- Concurrency: the library is single-threaded and makes no atomicity promise.
- `Scenarios.ConvertThenValidate`: Python's `int` is modelled only on unsigned decimal strings and integers (no sign, whitespace or underscores), which is all the tests use.
- setup.py is packaging metadata.

=== FILE: accessors.dfy ===
/**
  The get/set/delete triple installed for one property, and the read-only raw
  accessor. Each operation is a pure function from the instance's store to a
  `Step`: the store afterwards, the user callbacks it invoked (in order) and
  how the access ended. The store is part of the step even when the access
  ends in an exception, because the Python code mutates its dictionaries
  before some of the points where an exception can escape.
 */
module Accessors {
  import opened Outcomes
  import opened RawCache

  /** Whether `del obj.name` is allowed, and what user deleter then runs. */
  datatype DeleterMode = Disabled | Default | Custom(effect: Outcome)

  /** Everything the triple for one attribute closes over. */
  datatype AttrConfig<!V> = AttrConfig(
    name: string,
    getter: Option<V -> Result<V, Exc>>,
    cache: bool,
    setter: Option<V -> Result<V, Exc>>,
    converter: Option<V -> Result<V, Exc>>,
    validator: Option<V -> Outcome>,
    deleter: DeleterMode,
    doc: Option<string>)

  /** One invocation of a user callback, with the value it was handed. */
  datatype Call<V> =
    | GetterCall(name: string, arg: V)
    | ConverterCall(name: string, arg: V)
    | ValidatorCall(name: string, arg: V)
    | SetterCall(name: string, arg: V)
    | DeleterCall(name: string)

  datatype Step<V, T> = Step(store: Store<V>, calls: seq<Call<V>>, outcome: Result<T, Error>)

  function Optional<V>(present: bool, c: Call<V>): seq<Call<V>>
  {
    if present then [c] else []
  }

  /** The value a read derives from the raw value: the getter's result, or the raw value itself. */
  function Derive<V>(getter: Option<V -> Result<V, Exc>>, raw: V): Result<V, Error>
  {
    match getter
    case None => Ok(raw)
    case Some(g) => Lift(g(raw))
  }

  /** The assigned value after the runtime converter, if there is one. */
  function Convert<V>(cfg: AttrConfig<V>, value: V): Result<V, Error>
  {
    match cfg.converter
    case None => Ok(value)
    case Some(c) => Lift(c(value))
  }

  /** What the runtime validator, if there is one, says about a converted value. */
  function Validate<V>(cfg: AttrConfig<V>, value: V): Outcome
  {
    match cfg.validator
    case None => Returned
    case Some(f) => f(value)
  }

  /**
    The value an assignment of `value` stores, or the exception that stops it:
    the converted value, provided the validator accepts it.
   */
  function Admit<V>(cfg: AttrConfig<V>, value: V): (r: Result<V, Error>)
    ensures r.Ok? <==> Convert(cfg, value).Ok? && Validate(cfg, Convert(cfg, value).value).Returned?
    ensures r.Ok? ==> r.value == Convert(cfg, value).value
  {
    match Convert(cfg, value)
    case Err(e) => Err(e)
    case Ok(v) =>
      match Validate(cfg, v)
      case Raised(e) => Err(UserException(e))
      case Returned => Ok(v)
  }

  /** Reading the property: a cache hit, or the getter applied to the raw value. */
  function Get<V>(cfg: AttrConfig<V>, s: Store<V>): (r: Step<V, V>)
    // a read never changes a raw value, and touches no other name
    ensures r.store.raw == s.raw
    ensures OnlyTouches(s, r.store, cfg.name)
    // a cache hit returns the memoised value without calling the getter
    ensures cfg.cache && cfg.name in s.cached ==>
      r.store == s && r.calls == [] && r.outcome == Ok(s.cached[cfg.name])
    // a miss with no raw value fails and leaves the store alone
    ensures !(cfg.cache && cfg.name in s.cached) && cfg.name !in s.raw ==>
      r.store == s && r.calls == [] && r.outcome == Err(KeyError(cfg.name))
    // a miss derives the value from the raw value, memoising it when caching is on
    ensures !(cfg.cache && cfg.name in s.cached) && cfg.name in s.raw ==>
      && r.outcome == Derive(cfg.getter, s.raw[cfg.name])
      && r.calls == Optional(cfg.getter.Some?, GetterCall(cfg.name, s.raw[cfg.name]))
      && (cfg.cache && r.outcome.Ok? ==> r.store.cached == s.cached[cfg.name := r.outcome.value])
      && (!cfg.cache || r.outcome.Err? ==> r.store == s)
    ensures Coherent(s) ==> Coherent(r.store)
  {
    if cfg.cache && cfg.name in s.cached then
      Step(s, [], Ok(s.cached[cfg.name]))
    else if cfg.name !in s.raw then
      Step(s, [], Err(KeyError(cfg.name)))
    else
      var raw := s.raw[cfg.name];
      var calls := if cfg.getter.Some? then [GetterCall(cfg.name, raw)] else [];
      var ret := Derive(cfg.getter, raw);
      if ret.Ok? && cfg.cache then
        Step(s.(cached := s.cached[cfg.name := ret.value]), calls, ret)
      else
        Step(s, calls, ret)
  }

  /**
    Assigning the property: drop the cached value, convert, validate, store,
    then notify the user setter, whose return value is discarded.
   */
  function Set<V>(cfg: AttrConfig<V>, s: Store<V>, value: V): (r: Step<V, ()>)
    // the cache entry is gone whatever happens next
    ensures r.store.cached == s.cached - {cfg.name}
    ensures OnlyTouches(s, r.store, cfg.name)
    // the raw value changes exactly when conversion and validation succeed
    ensures Admit(cfg, value).Ok? ==> r.store.raw == s.raw[cfg.name := Admit(cfg, value).value]
    ensures Admit(cfg, value).Err? ==>
      r.store.raw == s.raw && r.outcome == Err(Admit(cfg, value).error)
    // the access succeeds exactly when nothing raised
    ensures r.outcome.Ok? <==>
      Admit(cfg, value).Ok? && (cfg.setter.Some? ==> cfg.setter.value(Admit(cfg, value).value).Ok?)
    // order of the callbacks: converter, validator, then the setter with the stored value;
    // a callback that raises is the last one called
    ensures Convert(cfg, value).Err? ==>
      r.calls == Optional(cfg.converter.Some?, ConverterCall(cfg.name, value))
    ensures Convert(cfg, value).Ok? && Validate(cfg, Convert(cfg, value).value).Raised? ==>
      r.calls == Optional(cfg.converter.Some?, ConverterCall(cfg.name, value))
        + [ValidatorCall(cfg.name, Convert(cfg, value).value)]
    ensures Admit(cfg, value).Ok? ==> (r.calls ==
      Optional(cfg.converter.Some?, ConverterCall(cfg.name, value))
      + Optional(cfg.validator.Some?, ValidatorCall(cfg.name, Admit(cfg, value).value))
      + Optional(cfg.setter.Some?, SetterCall(cfg.name, Admit(cfg, value).value)))
    ensures Admit(cfg, value).Err? ==> forall i :: 0 <= i < |r.calls| ==> !r.calls[i].SetterCall?
    // the setter's exception reaches the caller unchanged, after the value was stored
    ensures Admit(cfg, value).Ok? && cfg.setter.Some? && cfg.setter.value(Admit(cfg, value).value).Err? ==>
      r.outcome == Err(UserException(cfg.setter.value(Admit(cfg, value).value).error))
    ensures Coherent(s) ==> Coherent(r.store)
  {
    var dropped := s.(cached := s.cached - {cfg.name});
    var convCalls := Optional(cfg.converter.Some?, ConverterCall(cfg.name, value));
    match Convert(cfg, value)
    case Err(e) => Step(dropped, convCalls, Err(e))
    case Ok(v) =>
      var checkCalls := convCalls + Optional(cfg.validator.Some?, ValidatorCall(cfg.name, v));
      match Validate(cfg, v)
      case Raised(e) => Step(dropped, checkCalls, Err(UserException(e)))
      case Returned =>
        var stored := dropped.(raw := dropped.raw[cfg.name := v]);
        match cfg.setter
        case None => Step(stored, checkCalls, Ok(()))
        case Some(f) =>
          var notified := match f(v) case Ok(_) => Ok(()) case Err(e) => Err(UserException(e));
          Step(stored, checkCalls + [SetterCall(cfg.name, v)], notified)
  }

  /** Deleting the property: drop the raw and cached values, then run the user deleter. */
  function Delete<V>(cfg: AttrConfig<V>, s: Store<V>): (r: Step<V, ()>)
    // a property without a deleter refuses deletion
    ensures cfg.deleter.Disabled? ==> r == Step(s, [], Err(AttributeError(cfg.name)))
    // deleting an absent value fails before touching the cache
    ensures !cfg.deleter.Disabled? && cfg.name !in s.raw ==>
      r == Step(s, [], Err(KeyError(cfg.name)))
    ensures !cfg.deleter.Disabled? && cfg.name in s.raw ==>
      && cfg.name !in r.store.raw && cfg.name !in r.store.cached
      && r.calls == Optional(cfg.deleter.Custom?, DeleterCall(cfg.name))
      && (r.outcome.Ok? <==> !(cfg.deleter.Custom? && cfg.deleter.effect.Raised?))
      // the deleter's exception reaches the caller unchanged, after both entries were removed
      && (cfg.deleter.Custom? && cfg.deleter.effect.Raised? ==>
            r.outcome == Err(UserException(cfg.deleter.effect.exc)))
    ensures OnlyTouches(s, r.store, cfg.name)
    ensures Coherent(s) ==> Coherent(r.store)
  {
    if cfg.deleter.Disabled? then
      Step(s, [], Err(AttributeError(cfg.name)))
    else if cfg.name !in s.raw then
      Step(s, [], Err(KeyError(cfg.name)))
    else
      var removed := Store(s.raw - {cfg.name}, s.cached - {cfg.name});
      match cfg.deleter
      case Default => Step(removed, [], Ok(()))
      case Custom(Returned) => Step(removed, [DeleterCall(cfg.name)], Ok(()))
      case Custom(Raised(e)) => Step(removed, [DeleterCall(cfg.name)], Err(UserException(e)))
  }

  /** The raw accessor: the stored value itself, bypassing getter and cache. */
  function RawRead<V>(name: string, s: Store<V>): (r: Result<V, Error>)
    ensures r.Ok? <==> name in s.raw
    ensures r.Ok? ==> r.value == s.raw[name]
    ensures r.Err? ==> r.error == KeyError(name)
  {
    if name in s.raw then Ok(s.raw[name]) else Err(KeyError(name))
  }

  // ---------------------------------------------------------------------------
  // Properties relating several accesses
  // ---------------------------------------------------------------------------

  /**
    Two reads with no write in between agree; with caching on, the second one
    calls no getter and leaves the store as the first left it.
   */
  lemma GetTwice<V>(cfg: AttrConfig<V>, s: Store<V>)
    requires Get(cfg, s).outcome.Ok?
    ensures Get(cfg, Get(cfg, s).store).outcome == Get(cfg, s).outcome
    ensures cfg.cache ==>
      Get(cfg, Get(cfg, s).store).calls == [] && Get(cfg, Get(cfg, s).store).store == Get(cfg, s).store
  {
  }

  /**
    After an assignment is stored, the next read calls the getter on the new raw
    value, even when it equals the old one: the assignment invalidated the cache.
   */
  lemma SetThenGet<V>(cfg: AttrConfig<V>, s: Store<V>, value: V)
    requires Admit(cfg, value).Ok?
    ensures Get(cfg, Set(cfg, s, value).store).outcome == Derive(cfg.getter, Admit(cfg, value).value)
    ensures Get(cfg, Set(cfg, s, value).store).calls ==
      Optional(cfg.getter.Some?, GetterCall(cfg.name, Admit(cfg, value).value))
  {
  }

  /** The raw accessor sees the converted value the assignment stored, not the getter's result. */
  lemma SetThenRawRead<V>(cfg: AttrConfig<V>, s: Store<V>, value: V)
    requires Admit(cfg, value).Ok?
    ensures RawRead(cfg.name, Set(cfg, s, value).store) == Ok(Admit(cfg, value).value)
  {
  }

  /** A rejected assignment still drops the cached value and keeps the old raw value. */
  lemma RejectedSetDropsCache<V>(cfg: AttrConfig<V>, s: Store<V>, value: V)
    requires Admit(cfg, value).Err?
    ensures Set(cfg, s, value).store == Store(s.raw, s.cached - {cfg.name})
    ensures Set(cfg, s, value).outcome.Err?
  {
  }

  /**
    The user setter observes the stored value: whatever two setters return (short
    of raising), the store after the assignment is the same.
   */
  lemma SetterResultIgnored<V>(cfg: AttrConfig<V>, s: Store<V>, value: V,
                               f: V -> Result<V, Exc>, g: V -> Result<V, Exc>)
    requires Admit(cfg, value).Ok?
    requires f(Admit(cfg, value).value).Ok? && g(Admit(cfg, value).value).Ok?
    ensures Set(cfg.(setter := Some(f)), s, value) == Set(cfg.(setter := Some(g)), s, value)
    ensures Set(cfg.(setter := Some(f)), s, value).store == Set(cfg.(setter := None), s, value).store
  {
  }

  /** Once deleted, the property reads and deletes as absent until it is assigned again. */
  lemma DeleteThenAbsent<V>(cfg: AttrConfig<V>, s: Store<V>)
    requires !cfg.deleter.Disabled? && cfg.name in s.raw
    ensures Get(cfg, Delete(cfg, s).store).outcome == Err(KeyError(cfg.name))
    ensures Delete(cfg, Delete(cfg, s).store).outcome == Err(KeyError(cfg.name))
    ensures RawRead(cfg.name, Delete(cfg, s).store) == Err(KeyError(cfg.name))
  {
  }
}

=== FILE: declaration.dfy ===
/**
  `attr_property`: the attrs field declaration extended with property options.
  The options are normalised and recorded as the field's property metadata,
  which the class enhancer reads later; converter and validator stay ordinary
  attrs field settings.
 */
module Declaration {
  import opened Outcomes

  /** A user getter together with its doc string (`__doc__`, possibly absent). */
  datatype Getter<!V> = Getter(call: V -> Result<V, Exc>, doc: Option<string>)

  /** `setter=`: None (the default), False, or a callable. */
  datatype SetterOption<!V> = DefaultSetter | NoSetter | UserSetter(call: V -> Result<V, Exc>)

  /** `deleter=`: None (the default), False, or a callable; a deleter takes only the instance. */
  datatype DeleterOption = DefaultDeleter | NoDeleter | UserDeleter(effect: Outcome)

  /** `raw=`: a boolean, or a string used as the accessor's prefix. */
  datatype RawOption = RawFlag(on: bool) | RawPrefix(prefix: string)

  /** The property metadata of one field. */
  datatype PropertyOptions<!V> = PropertyOptions(
    getter: Option<Getter<V>>,
    setter: SetterOption<V>,
    deleter: DeleterOption,
    validatorRuntime: bool,
    converterRuntime: bool,
    cache: bool,
    raw: RawOption,
    doc: Option<string>)

  /** A declared attrs field; `property` is None for a plain `attr.ib`. */
  datatype Attribute<!V> = Attribute(
    name: string,
    converter: Option<V -> Result<V, Exc>>,
    validator: Option<V -> Outcome>,
    property: Option<PropertyOptions<V>>)

  /** The keyword defaults of `attr_property`. */
  function DefaultOptions<V>(): (o: PropertyOptions<V>)
    ensures o.getter.None? && o.setter.DefaultSetter? && o.deleter.DefaultDeleter?
    ensures o.validatorRuntime && o.converterRuntime && o.cache
    ensures o.raw == RawFlag(false) && o.doc.None?
  {
    PropertyOptions(None, DefaultSetter, DefaultDeleter, true, true, true, RawFlag(false), None)
  }

  /** `raw=True` stands for the prefix "_"; every other value is kept. */
  function NormaliseRaw(raw: RawOption): (r: RawOption)
    ensures r != RawFlag(true)
    ensures raw != RawFlag(true) ==> r == raw
    ensures raw == RawFlag(true) ==> r == RawPrefix("_")
  {
    if raw == RawFlag(true) then RawPrefix("_") else raw
  }

  /**
    The name of the raw accessor a field called `name` gets, if any: the prefix
    followed by the name, provided the recorded prefix is a non-empty string.
   */
  function AccessorName(name: string, raw: RawOption): (r: Option<string>)
    ensures r.Some? <==> raw.RawPrefix? && raw.prefix != ""
    ensures r.Some? ==> r.value == raw.prefix + name && |r.value| > |name|
  {
    match raw
    case RawPrefix(p) => if p != "" then Some(p + name) else None
    case RawFlag(_) => None
  }

  /** The field `name = attr_property(..., converter=c, validator=v, <options>)` declares. */
  function AttrProperty<V>(name: string, converter: Option<V -> Result<V, Exc>>,
                           validator: Option<V -> Outcome>, options: PropertyOptions<V>): (a: Attribute<V>)
    ensures a.name == name && a.converter == converter && a.validator == validator
    ensures a.property.Some?
    ensures a.property.value == options.(raw := NormaliseRaw(options.raw))
  {
    Attribute(name, converter, validator, Some(options.(raw := NormaliseRaw(options.raw))))
  }

  /**
    What each `raw=` choice gives the declared field: True an accessor named
    "_" + name, False none, a string its own prefix (none when it is empty);
    recording the options again changes nothing.
   */
  lemma RawOptionAccessor<V>(name: string, converter: Option<V -> Result<V, Exc>>,
                             validator: Option<V -> Outcome>, options: PropertyOptions<V>)
    ensures var a := AttrProperty(name, converter, validator, options);
      && (options.raw == RawFlag(true) ==> AccessorName(name, a.property.value.raw) == Some("_" + name))
      && (options.raw == RawFlag(false) ==> AccessorName(name, a.property.value.raw).None?)
      && (options.raw.RawPrefix? ==>
            AccessorName(name, a.property.value.raw) ==
              (if options.raw.prefix == "" then None else Some(options.raw.prefix + name)))
      && AttrProperty(name, converter, validator, a.property.value) == a
  {
  }
}

=== FILE: enhancer.dfy ===
/**
  `attr_property_class`: for every field carrying property metadata, build the
  get/set/delete triple from that metadata and install it on the class under
  the field's name, followed by the raw accessor when one is requested. The
  class namespace is modelled as the table of descriptors installed so far;
  fields are visited in declaration order, so a later installation under a
  name replaces an earlier one.
 */
module Enhancer {
  import opened Outcomes
  import opened Declaration
  import opened Accessors

  /** A class: the fields attrs recorded for it, or None when attrs never processed it. */
  datatype ClassDecl<!V> = ClassDecl(attrs: Option<seq<Attribute<V>>>)

  /** What the enhancer installs under a name. */
  datatype Descriptor<!V> = Computed(cfg: AttrConfig<V>) | RawAccessor(target: string)

  type Table<!V> = map<string, Descriptor<V>>

  const NotAttrsClass := "attr_property_class should be a decorator of an attr.s decorated class."

  /** The property's doc string: the `doc` option if non-empty, else the getter's, else a default. */
  function DocOf<V>(name: string, p: PropertyOptions<V>): (d: Option<string>)
    ensures p.doc.Some? && p.doc.value != "" ==> d == p.doc
    ensures (p.doc.None? || p.doc.value == "") && p.getter.Some? ==> d == p.getter.value.doc
    ensures (p.doc.None? || p.doc.value == "") && p.getter.None? ==> d == Some("Property " + name)
  {
    if p.doc.Some? && p.doc.value != "" then p.doc
    else if p.getter.Some? then p.getter.value.doc
    else Some("Property " + name)
  }

  /** The configuration the triple of a property field closes over. */
  function Wire<V>(a: Attribute<V>): (w: AttrConfig<V>)
    requires a.property.Some?
    ensures w.name == a.name && w.cache == a.property.value.cache
    ensures w.getter.Some? <==> a.property.value.getter.Some?
    ensures w.getter.Some? ==> w.getter.value == a.property.value.getter.value.call
    // only a callable setter is notified; None and False both leave assignment plain
    ensures w.setter.Some? <==> a.property.value.setter.UserSetter?
    ensures w.setter.Some? ==> w.setter.value == a.property.value.setter.call
    // the field's converter and validator run on assignment only when their runtime flag is on
    ensures w.converter.Some? <==> a.converter.Some? && a.property.value.converterRuntime
    ensures w.converter.Some? ==> w.converter == a.converter
    ensures w.validator.Some? <==> a.validator.Some? && a.property.value.validatorRuntime
    ensures w.validator.Some? ==> w.validator == a.validator
    // deletion is refused exactly when `deleter=False`
    ensures w.deleter.Disabled? <==> a.property.value.deleter.NoDeleter?
    ensures w.deleter.Default? <==> a.property.value.deleter.DefaultDeleter?
    ensures w.deleter.Custom? ==> w.deleter.effect == a.property.value.deleter.effect
    ensures w.doc == DocOf(a.name, a.property.value)
  {
    var p := a.property.value;
    AttrConfig(
      a.name,
      if p.getter.Some? then Some(p.getter.value.call) else None,
      p.cache,
      if p.setter.UserSetter? then Some(p.setter.call) else None,
      if a.converter.Some? && p.converterRuntime then a.converter else None,
      if a.validator.Some? && p.validatorRuntime then a.validator else None,
      match p.deleter
      case NoDeleter => Disabled
      case DefaultDeleter => Default
      case UserDeleter(e) => Custom(e),
      DocOf(a.name, p))
  }

  /** The names the enhancer writes for one field, in the order it writes them. */
  function KeysOf<V>(a: Attribute<V>): seq<string>
  {
    if a.property.None? then []
    else
      var acc := AccessorName(a.name, a.property.value.raw);
      [a.name] + (if acc.Some? then [acc.value] else [])
  }

  /** The names the enhancer writes for a sequence of fields, in order. */
  function InstallKeys<V>(attrs: seq<Attribute<V>>): seq<string>
  {
    if |attrs| == 0 then [] else KeysOf(attrs[0]) + InstallKeys(attrs[1..])
  }

  /** A table whose computed descriptors sit under the name they were built for. */
  ghost predicate WellFormed<V>(t: Table<V>)
  {
    forall k :: k in t && t[k].Computed? ==> t[k].cfg.name == k
  }

  /**
    One iteration of the enhancer's loop: the property built from the field's
    metadata goes under the field's name, and the raw accessor for this field
    under the accessor name (always longer than the field's name, so the two
    never collide).
   */
  function InstallOne<V>(t: Table<V>, a: Attribute<V>): (r: Table<V>)
    ensures forall k :: k in r <==> k in t || k in KeysOf(a)
    ensures forall k :: k in t && k !in KeysOf(a) ==> r[k] == t[k]
    ensures a.property.Some? ==> a.name in r && r[a.name] == Computed(Wire(a))
    ensures a.property.Some? && AccessorName(a.name, a.property.value.raw).Some? ==>
      var acc := AccessorName(a.name, a.property.value.raw).value;
      acc in r && r[acc] == RawAccessor(a.name)
    ensures WellFormed(t) ==> WellFormed(r)
  {
    if a.property.None? then t
    else
      var t1 := t[a.name := Computed(Wire(a))];
      match AccessorName(a.name, a.property.value.raw)
      case None => t1
      case Some(acc) => t1[acc := RawAccessor(a.name)]
  }

  /** The enhancer's loop over the fields, in declaration order. */
  function InstallAll<V>(t: Table<V>, attrs: seq<Attribute<V>>): (r: Table<V>)
    ensures forall k :: k in r <==> k in t || k in InstallKeys(attrs)
    ensures forall k :: k in t && k !in InstallKeys(attrs) ==> r[k] == t[k]
    ensures WellFormed(t) ==> WellFormed(r)
    decreases |attrs|
  {
    if |attrs| == 0 then t else InstallAll(InstallOne(t, attrs[0]), attrs[1..])
  }

  /** `attr_property_class(cls)`. */
  function Enhance<V>(cls: ClassDecl<V>): (r: Result<Table<V>, Error>)
    ensures r.Err? <==> cls.attrs.None?
    ensures r.Err? ==> r.error == ValueError(NotAttrsClass)
    ensures r.Ok? ==> WellFormed(r.value)
    ensures r.Ok? ==> forall k :: k in r.value <==> k in InstallKeys(cls.attrs.value)
  {
    match cls.attrs
    case None => Err(ValueError(NotAttrsClass))
    case Some(attrs) => Ok(InstallAll(map[], attrs))
  }

  /**
    The field at position `i` keeps the descriptors it installed unless a later
    field writes the same name: its property under its own name, and its raw
    accessor.
   */
  lemma {:induction false} InstallAllLookup<V>(t: Table<V>, attrs: seq<Attribute<V>>, i: nat)
    requires i < |attrs| && attrs[i].property.Some?
    ensures var r := InstallAll(t, attrs);
      var a := attrs[i];
      var acc := AccessorName(a.name, a.property.value.raw);
      && a.name in r && (acc.Some? ==> acc.value in r)
      && (a.name !in InstallKeys(attrs[i + 1..]) ==> r[a.name] == Computed(Wire(a)))
      && (acc.Some? && acc.value !in InstallKeys(attrs[i + 1..]) ==> r[acc.value] == RawAccessor(a.name))
    decreases i
  {
    if i == 0 {
      assert attrs[1..] == attrs[i + 1..];
    } else {
      assert attrs[1..][i - 1] == attrs[i];
      assert attrs[1..][i - 1 + 1..] == attrs[i + 1..];
      InstallAllLookup(InstallOne(t, attrs[0]), attrs[1..], i - 1);
    }
  }

  /** No two writes of the enhancer go to the same name. */
  ghost predicate NoClash<V>(attrs: seq<Attribute<V>>)
  {
    var ks := InstallKeys(attrs);
    forall x, y :: 0 <= x < y < |ks| ==> ks[x] != ks[y]
  }

  /** Without clashes overall, the first field's names clash neither with each other nor with the rest. */
  lemma NoClashParts<V>(attrs: seq<Attribute<V>>)
    requires |attrs| > 0 && NoClash(attrs)
    ensures NoClash(attrs[1..])
    ensures forall k :: k in KeysOf(attrs[0]) ==> k !in InstallKeys(attrs[1..])
    ensures |KeysOf(attrs[0])| == 2 ==> KeysOf(attrs[0])[0] != KeysOf(attrs[0])[1]
  {
    var own, rest := KeysOf(attrs[0]), InstallKeys(attrs[1..]);
    var ks := InstallKeys(attrs);
    assert ks == own + rest;
    forall x, y | 0 <= x < y < |rest| ensures rest[x] != rest[y] {
      assert ks[|own| + x] == rest[x] && ks[|own| + y] == rest[y];
    }
    forall k | k in own ensures k !in rest {
      var x :| 0 <= x < |own| && own[x] == k;
      forall y | 0 <= y < |rest| ensures rest[y] != k {
        assert ks[x] == k && ks[|own| + y] == rest[y];
      }
    }
  }

  /** Without clashes, no field after position `i` writes a name that field `i` writes. */
  lemma {:induction false} NoClashAt<V>(attrs: seq<Attribute<V>>, i: nat)
    requires NoClash(attrs) && i < |attrs| && attrs[i].property.Some?
    ensures var a := attrs[i];
      var acc := AccessorName(a.name, a.property.value.raw);
      && a.name !in InstallKeys(attrs[i + 1..])
      && (acc.Some? ==> acc.value !in InstallKeys(attrs[i + 1..]))
    decreases i
  {
    NoClashParts(attrs);
    if i == 0 {
      assert attrs[1..] == attrs[i + 1..];
    } else {
      assert attrs[1..][i - 1] == attrs[i];
      assert attrs[1..][i - 1 + 1..] == attrs[i + 1..];
      NoClashAt(attrs[1..], i - 1);
    }
  }

  /**
    When the enhancer never writes a name twice, every property field of an
    attrs class is reachable under its name with the configuration built from
    its metadata, and its raw accessor under the accessor name.
   */
  lemma EnhanceInstallsEveryProperty<V>(cls: ClassDecl<V>, i: nat)
    requires cls.attrs.Some? && NoClash(cls.attrs.value)
    requires i < |cls.attrs.value| && cls.attrs.value[i].property.Some?
    ensures var a := cls.attrs.value[i];
      var acc := AccessorName(a.name, a.property.value.raw);
      && a.name in Enhance(cls).value && Enhance(cls).value[a.name] == Computed(Wire(a))
      && (acc.Some? ==> acc.value in Enhance(cls).value && Enhance(cls).value[acc.value] == RawAccessor(a.name))
  {
    var attrs := cls.attrs.value;
    NoClashAt(attrs, i);
    InstallAllLookup(map[], attrs, i);
  }
}

=== FILE: instance.dfy ===
/**
  An instance of an enhanced class: its store, accessed through the descriptors
  the enhancer installed. Attribute reads, assignments and deletions dispatch on
  the descriptor found under the attribute's name; the raw accessor is a
  read-only property, so assigning or deleting it raises AttributeError.
 */
module Instance {
  import opened Outcomes
  import opened RawCache
  import opened Accessors
  import opened Enhancer

  /** `obj.n` */
  function ReadAttr<V>(t: Table<V>, s: Store<V>, n: string): (r: Step<V, V>)
    requires n in t
    ensures t[n].RawAccessor? ==> r.store == s && r.calls == [] && r.outcome == RawRead(t[n].target, s)
    ensures t[n].Computed? ==> r == Get(t[n].cfg, s)
  {
    match t[n]
    case Computed(cfg) => Get(cfg, s)
    case RawAccessor(target) => Step(s, [], RawRead(target, s))
  }

  /** `obj.n = value` */
  function WriteAttr<V>(t: Table<V>, s: Store<V>, n: string, value: V): (r: Step<V, ()>)
    requires n in t
    ensures t[n].RawAccessor? ==> r == Step(s, [], Err(AttributeError(n)))
    ensures t[n].Computed? ==> r == Set(t[n].cfg, s, value)
  {
    match t[n]
    case Computed(cfg) => Set(cfg, s, value)
    case RawAccessor(_) => Step(s, [], Err(AttributeError(n)))
  }

  /** `del obj.n` */
  function DeleteAttr<V>(t: Table<V>, s: Store<V>, n: string): (r: Step<V, ()>)
    requires n in t
    ensures t[n].RawAccessor? ==> r == Step(s, [], Err(AttributeError(n)))
    ensures t[n].Computed? ==> r == Delete(t[n].cfg, s)
  {
    match t[n]
    case Computed(cfg) => Delete(cfg, s)
    case RawAccessor(_) => Step(s, [], Err(AttributeError(n)))
  }

  /** One attribute access on an instance. */
  datatype Op<V> = Read(attr: string) | Write(attr: string, value: V) | Remove(attr: string)

  /** The store after one access, whether it succeeded or raised. */
  function Apply<V>(t: Table<V>, s: Store<V>, op: Op<V>): Store<V>
    requires op.attr in t
  {
    match op
    case Read(n) => ReadAttr(t, s, n).store
    case Write(n, v) => WriteAttr(t, s, n, v).store
    case Remove(n) => DeleteAttr(t, s, n).store
  }

  ghost predicate Applicable<V>(t: Table<V>, ops: seq<Op<V>>)
  {
    forall i :: 0 <= i < |ops| ==> ops[i].attr in t
  }

  /** The store after a sequence of accesses; an exception ends one access, not the sequence. */
  function Run<V>(t: Table<V>, s: Store<V>, ops: seq<Op<V>>): Store<V>
    requires Applicable(t, ops)
    decreases |ops|
  {
    if |ops| == 0 then s else Run(t, Apply(t, s, ops[0]), ops[1..])
  }

  /**
    The store invariant: every raw value belongs to a property installed under
    that name, and a value is cached only for a caching property that currently
    has a raw value, and only while it is what the getter makes of that raw
    value (it was computed after the last assignment or deletion).
   */
  ghost predicate Consistent<V>(t: Table<V>, s: Store<V>)
  {
    && (forall n :: n in s.raw ==> n in t && t[n].Computed?)
    && (forall n :: n in s.cached ==>
          && n in s.raw && t[n].cfg.cache
          && Derive(t[n].cfg.getter, s.raw[n]) == Ok(s.cached[n]))
  }

  lemma ApplyKeepsConsistent<V>(t: Table<V>, s: Store<V>, op: Op<V>)
    requires WellFormed(t) && op.attr in t && Consistent(t, s)
    ensures Consistent(t, Apply(t, s, op))
  {
    var n := op.attr;
    var s' := Apply(t, s, op);
    if t[n].Computed? {
      assert t[n].cfg.name == n;
      forall k | k != n ensures AgreeOn(s, s', k) {
        assert OnlyTouches(s, s', n);
      }
    }
  }

  /** Every sequence of accesses, successful or not, preserves the store invariant. */
  lemma {:induction false} RunKeepsConsistent<V>(t: Table<V>, s: Store<V>, ops: seq<Op<V>>)
    requires WellFormed(t) && Applicable(t, ops) && Consistent(t, s)
    ensures Consistent(t, Run(t, s, ops))
    ensures Coherent(Run(t, s, ops))
    decreases |ops|
  {
    if |ops| > 0 {
      ApplyKeepsConsistent(t, s, ops[0]);
      assert Applicable(t, ops[1..]) by {
        forall i | 0 <= i < |ops[1..]| ensures ops[1..][i].attr in t {
          assert ops[1..][i] == ops[i + 1];
        }
      }
      RunKeepsConsistent(t, Apply(t, s, ops[0]), ops[1..]);
    }
  }

  /**
    Starting from the empty store every instance is constructed with, a value
    is cached only while it has a raw value and equals the getter's result on
    it, for every class the enhancer accepts and every sequence of accesses.
   */
  lemma FreshInstanceStaysConsistent<V>(cls: ClassDecl<V>, ops: seq<Op<V>>)
    requires Enhance(cls).Ok? && Applicable(Enhance(cls).value, ops)
    ensures Consistent(Enhance(cls).value, Run(Enhance(cls).value, Empty(), ops))
    ensures Coherent(Run(Enhance(cls).value, Empty(), ops))
  {
    RunKeepsConsistent(Enhance(cls).value, Empty(), ops);
  }

  /**
    On a consistent store the cache is transparent: reading a property gives
    what an uncached read would, the getter's result on the current raw value,
    so a read never returns a stale value.
   */
  lemma CacheTransparent<V>(t: Table<V>, s: Store<V>, n: string)
    requires WellFormed(t) && Consistent(t, s) && n in t && t[n].Computed?
    ensures ReadAttr(t, s, n).outcome == Get(t[n].cfg.(cache := false), s).outcome
    ensures n in s.raw ==> ReadAttr(t, s, n).outcome == Derive(t[n].cfg.getter, s.raw[n])
    ensures n !in s.raw ==> ReadAttr(t, s, n).outcome == Err(KeyError(n))
  {
    assert t[n].cfg.name == n;
  }

  /**
    On an instance of an enhanced class, after any sequence of accesses, reading
    a property gives the getter's result on the value last stored.
   */
  lemma FreshInstanceReadsCurrent<V>(cls: ClassDecl<V>, ops: seq<Op<V>>, n: string)
    requires Enhance(cls).Ok? && Applicable(Enhance(cls).value, ops)
    requires n in Enhance(cls).value && Enhance(cls).value[n].Computed?
    ensures var t := Enhance(cls).value;
      var s := Run(t, Empty(), ops);
      ReadAttr(t, s, n).outcome == Get(t[n].cfg.(cache := false), s).outcome
  {
    FreshInstanceStaysConsistent(cls, ops);
    CacheTransparent(Enhance(cls).value, Run(Enhance(cls).value, Empty(), ops), n);
  }

  /**
    The raw accessor of a property reads the value last stored, bypassing the
    getter and cache, while the property itself reads through the getter.
   */
  lemma RawAccessorBypassesGetter<V>(t: Table<V>, s: Store<V>, n: string, acc: string, value: V)
    requires WellFormed(t) && n in t && t[n].Computed? && acc in t && t[acc] == RawAccessor(n)
    requires Admit(t[n].cfg, value).Ok?
    ensures var s' := WriteAttr(t, s, n, value).store;
      && ReadAttr(t, s', acc).outcome == Ok(Admit(t[n].cfg, value).value)
      && ReadAttr(t, s', acc).calls == []
      && ReadAttr(t, s', n).outcome == Derive(t[n].cfg.getter, Admit(t[n].cfg, value).value)
  {
    SetThenRawRead(t[n].cfg, s, value);
    SetThenGet(t[n].cfg, s, value);
  }
}

=== FILE: outcomes.dfy ===
/** Optional values, results and the exceptions the library lets propagate. */
module Outcomes {

  /** The message of an exception raised by user code (a getter, converter, validator, setter or deleter). */
  type Exc = string

  datatype Option<+T> = None | Some(value: T)

  datatype Result<+T, +E> = Ok(value: T) | Err(error: E)

  /** What a callback whose return value is ignored did: it returned, or it raised. */
  datatype Outcome = Returned | Raised(exc: Exc)

  /** The exceptions an attribute access can end with. */
  datatype Error =
    | KeyError(key: string)            // no raw value is stored under `key`
    | AttributeError(attribute: string) // the property has no deleter, or the attribute is read-only
    | ValueError(message: string)      // the enhancer was applied to a class attrs never processed
    | UserException(exc: Exc)          // raised by a user callback and propagated unchanged

  /** A callback's exception, as it reaches the caller of the attribute access. */
  function Lift<T>(r: Result<T, Exc>): (l: Result<T, Error>)
    ensures l.Ok? <==> r.Ok?
    ensures r.Ok? ==> l.value == r.value
    ensures r.Err? ==> l.error == UserException(r.error)
  {
    match r
    case Ok(v) => Ok(v)
    case Err(e) => Err(UserException(e))
  }
}

=== FILE: raw_cache.dfy ===
/**
  The per-instance store: `raw` holds the last value assigned to each property
  (after conversion), `cached` the memoised result of its getter. Every instance
  starts with both maps empty; the attrs-generated `__init__` allocates them
  before it assigns any field.
 */
module RawCache {

  datatype Store<V> = Store(raw: map<string, V>, cached: map<string, V>)

  /** The store of a freshly constructed instance. */
  function Empty<V>(): (s: Store<V>)
    ensures |s.raw| == 0 && |s.cached| == 0
  {
    Store(map[], map[])
  }

  /** A name is cached only while it has a raw value. */
  predicate Coherent<V>(s: Store<V>)
  {
    s.cached.Keys <= s.raw.Keys
  }

  /** `s` and `t` hold the same raw and cached entries for `k`. */
  ghost predicate AgreeOn<V>(s: Store<V>, t: Store<V>, k: string)
  {
    && (k in s.raw <==> k in t.raw)
    && (k in s.raw ==> s.raw[k] == t.raw[k])
    && (k in s.cached <==> k in t.cached)
    && (k in s.cached ==> s.cached[k] == t.cached[k])
  }

  /** Going from `s` to `t` changed no entry except possibly those of `name`. */
  ghost predicate OnlyTouches<V>(s: Store<V>, t: Store<V>, name: string)
  {
    forall k :: k != name ==> AgreeOn(s, t, k)
  }
}

=== FILE: scenarios.dfy ===
/**
  The classes of the repository's test suite and README example, instantiated
  with a small universe of Python values, and the behaviour their assertions
  describe, stated about the model.
 */
module Scenarios {
  import opened Outcomes
  import opened RawCache
  import opened Declaration
  import opened Accessors
  import opened Enhancer
  import opened Instance

  datatype PyValue = PyNone | PyInt(i: int) | PyStr(s: string)

  function DigitValue(c: char): int
  {
    c as int - '0' as int
  }

  predicate IsDigits(s: string)
  {
    forall k :: 0 <= k < |s| ==> '0' <= s[k] <= '9'
  }

  /** The value of a string of decimal digits. */
  function Decimal(s: string): int
    requires IsDigits(s)
    decreases |s|
  {
    if |s| == 0 then 0 else Decimal(s[..|s| - 1]) * 10 + DigitValue(s[|s| - 1])
  }

  /** `int` used as a converter, on unsigned decimal strings and integers. */
  function IntConverter(v: PyValue): Result<PyValue, Exc>
  {
    match v
    case PyInt(_) => Ok(v)
    case PyStr(s) => if s != "" && IsDigits(s) then Ok(PyInt(Decimal(s))) else Err("ValueError")
    case PyNone => Err("TypeError")
  }

  /** `d_getter`: `value * 3` (repetition on strings). */
  function Triple(v: PyValue): Result<PyValue, Exc>
  {
    match v
    case PyInt(i) => Ok(PyInt(3 * i))
    case PyStr(s) => Ok(PyStr(s + s + s))
    case PyNone => Err("TypeError")
  }

  /** The `lessthan20` validator of field `d`. */
  function LessThan20(v: PyValue): Outcome
  {
    match v
    case PyInt(i) => if i >= 20 then Raised("d should be less than 20.") else Returned
    case _ => Raised("TypeError")
  }

  /** `c_setter` and the README's `a_setter` print and return None. */
  function PrintSetter(v: PyValue): Result<PyValue, Exc>
  {
    Ok(PyNone)
  }

  /** The README's `a_getter`: `value + 1`. */
  function AddOne(v: PyValue): Result<PyValue, Exc>
  {
    match v
    case PyInt(i) => Ok(PyInt(i + 1))
    case _ => Err("TypeError")
  }

  function FieldB(): Attribute<PyValue>
  {
    AttrProperty("b", None, None, DefaultOptions())
  }

  function FieldC(): Attribute<PyValue>
  {
    AttrProperty("c", None, None,
      DefaultOptions().(setter := UserSetter(PrintSetter), deleter := UserDeleter(Returned)))
  }

  function FieldD(): Attribute<PyValue>
  {
    AttrProperty("d", Some(IntConverter), Some(LessThan20),
      DefaultOptions().(getter := Some(Getter(Triple, None)), raw := RawPrefix("_")))
  }

  /** The class `TestInstance` of the test suite. */
  function TestInstance(): ClassDecl<PyValue>
  {
    ClassDecl(Some([Attribute("a", None, None, None), FieldB(), FieldC(), FieldD()]))
  }

  /** The names the enhancer writes for `TestInstance`, in order, none of them twice. */
  lemma TestInstanceKeys()
    ensures InstallKeys(TestInstance().attrs.value) == ["b", "c", "d", "_d"]
    ensures NoClash(TestInstance().attrs.value)
  {
    var attrs := TestInstance().attrs.value;
    assert "_" + "d" == "_d";
    assert AccessorName("d", FieldD().property.value.raw) == Some("_d");
    assert KeysOf(FieldD()) == ["d", "_d"];
    assert KeysOf(FieldC()) == ["c"];
    assert KeysOf(FieldB()) == ["b"];
    assert InstallKeys(attrs[3..]) == ["d", "_d"] by {
      assert attrs[3..][0] == FieldD() && attrs[3..][1..] == [];
    }
    assert InstallKeys(attrs[2..]) == ["c", "d", "_d"] by {
      assert attrs[2..][0] == FieldC() && attrs[2..][1..] == attrs[3..];
    }
    assert InstallKeys(attrs[1..]) == ["b", "c", "d", "_d"] by {
      assert attrs[1..][0] == FieldB() && attrs[1..][1..] == attrs[2..];
    }
  }

  /** The enhanced `TestInstance` installs exactly b, c, d and the raw accessor `_d`, and nothing for the plain field a. */
  lemma TestInstanceTable()
    ensures Enhance(TestInstance()).Ok?
    ensures Enhance(TestInstance()).value.Keys == {"b", "c", "d", "_d"}
  {
    TestInstanceKeys();
  }

  /**
    In the enhanced `TestInstance` the properties b, c and d are each wired from
    their own field, and `_d` reads d's raw value.
   */
  lemma TestInstanceWired()
    ensures Enhance(TestInstance()).Ok?
    ensures var t := Enhance(TestInstance()).value;
      && "b" in t && t["b"] == Computed(Wire(FieldB()))
      && "c" in t && t["c"] == Computed(Wire(FieldC()))
      && "d" in t && t["d"] == Computed(Wire(FieldD()))
      && "_d" in t && t["_d"] == RawAccessor("d")
  {
    TestInstanceKeys();
    EnhanceInstallsEveryProperty(TestInstance(), 1);
    EnhanceInstallsEveryProperty(TestInstance(), 2);
    EnhanceInstallsEveryProperty(TestInstance(), 3);
  }

  /** `attr_property_class` on a class attrs never processed raises ValueError. */
  lemma TestException()
    ensures Enhance(ClassDecl<PyValue>.ClassDecl(None)) == Err(ValueError(NotAttrsClass))
  {
  }

  /**
    The assertions of the test suite after construction: reads fill the cache,
    `d` reads 12 from the cache while `_d` reads the raw 4; deleting `c` drops
    both its entries and runs the deleter; reassigning `c` notifies the setter
    and the next read sees the new value.
   */
  lemma TestScenario()
    ensures var b, c, d := Wire(FieldB()), Wire(FieldC()), Wire(FieldD());
      var s0 := Store(map["b" := PyInt(2), "c" := PyInt(3), "d" := PyInt(4)], map["d" := PyInt(12)]);
      var g1 := Get(b, s0);
      var g2 := Get(c, g1.store);
      var g3 := Get(d, g2.store);
      && g1.outcome == Ok(PyInt(2)) && g2.outcome == Ok(PyInt(3))
      && g3.outcome == Ok(PyInt(12)) && g3.calls == []
      && RawRead("d", g3.store) == Ok(PyInt(4))
      && g3.store.cached == map["b" := PyInt(2), "c" := PyInt(3), "d" := PyInt(12)]
      && var del := Delete(c, g3.store);
      && del.outcome == Ok(()) && del.calls == [DeleterCall("c")]
      && del.store == Store(map["b" := PyInt(2), "d" := PyInt(4)], map["b" := PyInt(2), "d" := PyInt(12)])
      && var w := Set(c, del.store, PyInt(30));
      && w.calls == [SetterCall("c", PyInt(30))]
      && Get(c, w.store).outcome == Ok(PyInt(30))
      && Get(c, Set(c, Get(c, w.store).store, PyInt(300)).store).outcome == Ok(PyInt(300))
  {
  }

  /**
    Field `d` converts before validating: "4" is stored as 4 and reads as 12;
    20 and "20" are rejected, leaving the raw value at 4 and the cache empty.
   */
  lemma ConvertThenValidate()
    ensures var d := Wire(FieldD());
      var s1 := Set(d, Empty(), PyStr("4")).store;
      && s1.raw == map["d" := PyInt(4)]
      && Get(d, s1).outcome == Ok(PyInt(12))
      && var s2 := Get(d, s1).store;
      && Set(d, s2, PyInt(20)).outcome == Err(UserException("d should be less than 20."))
      && Set(d, s2, PyInt(20)).store == Store(map["d" := PyInt(4)], map[])
      && Set(d, s2, PyStr("20")).outcome == Err(UserException("d should be less than 20."))
      && Set(d, s2, PyStr("20")).calls == [ConverterCall("d", PyStr("20")), ValidatorCall("d", PyInt(20))]
      && Set(d, s2, PyStr("20")).store == Store(map["d" := PyInt(4)], map[])
  {
    assert Decimal("4") == 4;
    assert Decimal("20") == 20 by {
      assert "20"[..1] == "2";
    }
  }

  /** The README example: the getter adds one; after deletion the read fails. */
  lemma ReadmeScenario()
    ensures var a := Wire(AttrProperty("a", None, None,
      DefaultOptions().(getter := Some(Getter(AddOne, None)),
                        setter := UserSetter(PrintSetter),
                        deleter := UserDeleter(Returned))));
      var w := Set(a, Empty(), PyInt(1));
      var g := Get(a, w.store);
      var del := Delete(a, g.store);
      && w.outcome == Ok(()) && w.calls == [SetterCall("a", PyInt(1))]
      && g.outcome == Ok(PyInt(2)) && g.calls == [GetterCall("a", PyInt(1))]
      && del.calls == [DeleterCall("a")]
      && Get(a, del.store).outcome == Err(KeyError("a"))
  {
  }
}
